=== FILE: README.md ===
# Amazon sales dashboard: filter-and-aggregate model

The dashboard loads two datasets of sales records. `df` is the "highly
unbalanced" one and `df_balanced` is the other. The sidebar offers four
multi-select filters: regions, product categories, payment methods and order
years. The page then shows:

- the rows of each dataset that pass all four filters;
- four headline metrics: items sold, revenue, lowest price, highest price;
- for each dataset, a pie chart of quantity sold per category;
- for each dataset, three grouped histograms built from
  `groupby(key)[value].value_counts()`.

This project models that pipeline as pure Dafny functions over `seq<Record>`
and proves what each step promises.

Modules, in dependency order:

- `SortedStrings`: Python's ordering of strings, code point by code point,
  written as `Less`. It includes the proof that `Less` is a strict total
  order, and sorted, duplicate-free insertion. Dafny's built-in `<` on
  strings means "proper prefix", so it cannot stand in for Python's `<`.
- `Sales`: the `Record` datatype, the derived `order_year` column
  (`OrderYear`), column access by `Field`, groups (`Select`), column sums
  (`Total`), and the min/max of `price`.
- `Options`: `sorted(df[col].unique())`, the union used for payment methods,
  and the four option lists.
- `Filtering`: the four-way `isin` mask applied to a dataset.
- `Metrics`: the empty-guarded headline metrics.
- `Aggregates`: the per-category quantity sums and the per-pair counts. One
  `PairCounts` function serves all three histograms: category by region,
  category by payment method, and region by payment method.
- `Dashboard`: one run of the page. It covers the default selection, both
  filtered datasets, the metrics and the two chart tabs. A chart tab is either
  its data or the "no data" warning.

Two behaviours of the code are modelled as written:

- **Metrics ignore the filter.** The metrics sit under the filters, so one
  might expect them to summarise the filtered rows. Lines 85-88 of
  `app/app_amazon.py` compute them over the whole of `df` instead, and use
  the filtered rows only to decide between those values and zeros. Take a US
  sale (3 items, revenue 30, price 10) and an EU sale (2 items, revenue 20,
  price 10), with only the US selected. Summarising the filtered rows would
  give (3, 30, 10, 10). The code gives (5, 50, 10, 10). The model follows the
  code, and `Dashboard.RegionExample` proves the code's value.
- **Options come from `df` only.** The region, category and year options are
  taken from `df` alone, but they also filter `df_balanced`. With the default
  selection, `df` therefore comes back whole (`Dashboard.DefaultsKeepUnbalanced`).
  A balanced row is kept only when its region, category and year also occur
  in `df` (`Dashboard.DefaultsOnBalanced`), and such rows can be dropped
  (`Dashboard.DefaultsMayDropBalanced`).

## Model

| member | source | states |
|---|---|---|
| `Sales.OrderYear` | app/app_amazon.py:46-47 | the year is a prefix of the date: its first four characters, or the whole date when the date is shorter (Python slice `[:4]`) |
| `Sales.IsoDateYear` | app/app_amazon.py:46 | a `YYYY-MM-DD...` date yields exactly its `YYYY` part |
| `Sales.Select` | app/app_amazon.py:112 | one `groupby` group: a row is in it exactly when the row is in the data and carries the group's value |
| `Sales.SelectMultiplicity` | app/app_amazon.py:112 | a group holds each row with the group's value as many times as the data does, and no row with another value |
| `Sales.SelectIsSubsequence` | app/app_amazon.py:112 | a group keeps its rows in their order in the data |
| `Sales.Total` | app/app_amazon.py:85-86 | a column sum of non-negative quantities is non-negative; summing the unit weight counts the rows |
| `Sales.TotalConcat` | app/app_amazon.py:85-86 | a column sum over two blocks of rows is the sum of the two blocks' sums |
| `Sales.MinPrice` | app/app_amazon.py:87 | `price.min()` is one of the prices and no price is below it |
| `Sales.MaxPrice` | app/app_amazon.py:88 | `price.max()` is one of the prices and no price is above it |
| `SortedStrings.LessIsLexicographic` | app/app_amazon.py:33 | `Less` is Python's string `<`: at the first position where the strings differ, the first has the smaller code point, or the first string is a proper prefix of the second |
| `SortedStrings.LessTotal` | app/app_amazon.py:33 | any two different strings are ordered one way or the other under Python's comparison, so `sorted` is well defined |
| `SortedStrings.LessTransitive` | app/app_amazon.py:33 | Python's string comparison is transitive |
| `SortedStrings.SortedListingUnique` | app/app_amazon.py:33 | a set of strings has only one ascending, duplicate-free listing, so the option lists are determined by their value sets |
| `Options.DistinctValues` | app/app_amazon.py:33 | `sorted(col.unique())` is strictly ascending and holds exactly the values the column takes |
| `Options.UnionValues` | app/app_amazon.py:43 | the payment list is strictly ascending and holds exactly the payment methods of either dataset |
| `Options.UnionIsDistinctOfBoth` | app/app_amazon.py:43 | the sorted union of the two value sets equals the sorted distinct values of the two datasets taken together |
| `Options.DistinctValuesDependOnlyOnValues` | app/app_amazon.py:33 | two datasets whose column takes the same set of values get the same option list, whatever the row order or repetition |
| `Options.AvailableOptions` | app/app_amazon.py:33-48 | regions, categories and years are the sorted distinct values of `df` only; payments are the sorted union over both datasets |
| `Filtering.FilterRows` | app/app_amazon.py:53-65 | every kept row passes all four membership tests, and no more rows are kept than the source has |
| `Filtering.FilterRowsIsSubsequence` | app/app_amazon.py:53-65 | the kept rows appear in the source in the same relative order (boolean-mask indexing keeps row order) |
| `Filtering.FilterRowsKeepsExactlyMatching` | app/app_amazon.py:53-65 | a row is kept exactly when it is in the source and its region, category, payment method and order year are each in the selected set |
| `Filtering.FilterRowsMultiplicity` | app/app_amazon.py:53-65 | a passing row is kept as many times as it occurs in the source; a failing row not at all |
| `Filtering.EmptySelectionEmptiesResult` | app/app_amazon.py:53-58 | if any one of the four selections is empty, nothing is kept |
| `Filtering.FilterKeepsAllMatching` | app/app_amazon.py:53-58 | when every row passes the four tests, the filter returns the rows unchanged, in content and order |
| `Filtering.SelectingAllValuesKeepsAll` | app/app_amazon.py:53-58 | selecting every value present in each of the four columns returns the data unchanged |
| `Filtering.FilterIdempotent` | app/app_amazon.py:53-58 | filtering already-filtered data with the same selection changes nothing |
| `Filtering.FilterConcat` | app/app_amazon.py:53-65 | filtering two datasets with one selection equals filtering their concatenation |
| `Metrics.GeneralMetrics` | app/app_amazon.py:84-90 | empty filtered `df`: all four metrics are 0. Otherwise: total sold and revenue are the sums over the whole `df`, and lowest/highest are a price of `df` that bounds every price of `df` from below/above |
| `Metrics.MetricsIgnoreSelection` | app/app_amazon.py:84-88 | any two selections that both keep a row show identical metrics |
| `Metrics.EmptySelectionZeroesMetrics` | app/app_amazon.py:84-90 | an empty selection in any control gives metrics (0, 0, 0, 0) |
| `Aggregates.GroupTotalsPartition` | app/app_amazon.py:112 | for any key list without repeats that covers every value of a column (the ascending keys of `groupby` are one such list), the per-group totals add up to the total over all rows |
| `Aggregates.CategoryTotals` | app/app_amazon.py:112 | the category sums list each category present exactly once, in ascending order, and each holds the quantity sold of that category's rows. The sums add up to the total quantity sold of the rows |
| `Aggregates.SelectTwiceCountsPair` | app/app_amazon.py:132 | counting a value within a key's group equals counting the rows carrying that (key, value) pair |
| `Aggregates.PairCounts` | app/app_amazon.py:132 | `groupby(key)[value].value_counts()` lists exactly the (key, value) pairs present in the rows, each once, with keys ascending. Each count is positive and equals the number of rows with that pair |
| `Aggregates.PairCountsAddUp` | app/app_amazon.py:132 | the counts add up to the number of rows |
| `Dashboard.ChartTabFor` | app/app_amazon.py:110-200 | a tab shows warnings exactly when its filtered data is empty. Otherwise the pie has a slice for exactly the categories present, each slice is the quantity sold of its category's filtered rows, and the slices add up to the filtered quantity. Each histogram shows exactly the (key, value) pairs present in the filtered rows, each bar is the number of filtered rows with its pair, and the bars add up to the filtered row count |
| `Dashboard.Render` | app/app_amazon.py:33-209 | the page ties each element to its source. The options are `AvailableOptions` of both datasets and the metrics are `GeneralMetrics` of `df`, so they are zero when the filtered `df` is empty. Each tab is drawn from its own filtered view by `ChartTabFor`, so it is skipped exactly when that view is empty. Both filtered views are subsequences of their datasets |
| `Dashboard.DefaultSelection` | app/app_amazon.py:33-49 | the widgets' defaults select every offered option: a row passes exactly when each of its four values is in the matching option list |
| `Dashboard.RenderShowsSelectedRows` | app/app_amazon.py:53-88 | each displayed table holds exactly the rows of its dataset that pass the four tests, each as many times as the dataset holds it; with a non-empty `df` view, items sold and revenue are the sums over the whole of `df` |
| `Dashboard.DefaultsKeepUnbalanced` | app/app_amazon.py:33-58 | with every option selected (the widget defaults), filtering `df` returns `df` unchanged |
| `Dashboard.DefaultsOnBalanced` | app/app_amazon.py:33-65 | under the defaults, a balanced row passes the four tests, and so is kept in the filtered balanced table, exactly when its region, category and year occur in `df` |
| `Dashboard.DefaultsMayDropBalanced` | app/app_amazon.py:33-65 | a concrete balanced row whose region is absent from `df` is dropped under the defaults |
| `Dashboard.EmptySelectionView` | app/app_amazon.py:84-209 | an empty selection in any control zeroes the metrics and replaces both chart tabs by warnings |
| `Dashboard.RegionExample` | app/app_amazon.py:53-90 | two rows (US 2022, EU 2023), only US selected: the filtered data is the US row, and the metrics are (5, 50, 10, 10), taken over both rows |
| `Dashboard.MissingYearExample` | app/app_amazon.py:53-90 | selecting a year no row has gives an empty result and zero metrics |

## Left out

- Page setup, logo, sidebar widgets, columns, tabs, metric cards and data tables are user-interface calls. The model treats the four selections as inputs. A chart panel is reduced to its data, or to the warning shown when its data is empty.
- CSV loading and `@st.cache_data` memoisation (app/app_amazon.py:15-23) are file I/O plus library caching. Both datasets are parameters.
- Chart construction and styling with Plotly (for example app/app_amazon.py:113-126) are calls into a library with no logic of their own here.
- Currency formatting of the metric cards (app/app_amazon.py:94-96) is not modelled.
- `price` and `total_revenue` are decimals in the data but integers in the model. Floating-point rounding of the sums is not modelled.
- Integer sums are unbounded, so 64-bit overflow of `quantity_sold.sum()` is not modelled.
- Missing values (NaN) are not modelled: no row lacks a field. This leaves out pandas dropping NaN keys in `groupby` and `str[:4]` giving NaN.
- Aggregates.PairCounts: within one key, the model lists values in ascending order. `value_counts` lists them by descending count, which affects only the bar order of the charts. The key order, the set of pairs and the counts are as in the source.

=== FILE: aggregates.dfy ===
/**
  The tables behind the chart panels:
  - `groupby('product_category')['quantity_sold'].sum()` (the pie chart), and
  - `groupby(key)[value].value_counts()` (the three grouped histograms).
  `groupby` lists its groups in ascending key order and only for keys that
  occur in the data.
 */
module Aggregates {
  import opened SortedStrings
  import opened Sales
  import opened Options

  // ---------------------------------------------------------------------------
  // Splitting a measure over the groups of a column

  /** The measure `m` summed group by group, over the groups named in `keys`. */
  function GroupTotals(rows: seq<Record>, f: Field, m: Measure, keys: seq<string>): int
  {
    if |keys| == 0 then 0
    else Total(Select(rows, f, keys[0]), m) + GroupTotals(rows, f, m, keys[1..])
  }

  lemma {:induction false} GroupTotalsOfNoRows(f: Field, m: Measure, keys: seq<string>)
    ensures GroupTotals([], f, m, keys) == 0
  {
    if |keys| > 0 {
      GroupTotalsOfNoRows(f, m, keys[1..]);
    }
  }

  /** No key is listed twice. */
  predicate NoDuplicates(keys: seq<string>)
  {
    forall i, j :: 0 <= i < j < |keys| ==> keys[i] != keys[j]
  }

  /** An ascending listing, such as the keys `groupby` produces, repeats no key. */
  lemma SortedHasNoDuplicates(keys: seq<string>)
    requires StrictlySorted(keys)
    ensures NoDuplicates(keys)
  {
    forall i, j | 0 <= i < j < |keys|
      ensures keys[i] != keys[j]
    {
      StrictlySortedDistinct(keys, i, j);
    }
  }

  /** Adding one row adds its weight to exactly the group it belongs to, if listed. */
  lemma {:induction false} GroupTotalsCons(r: Record, rest: seq<Record>, f: Field, m: Measure, keys: seq<string>)
    requires NoDuplicates(keys)
    ensures GroupTotals([r] + rest, f, m, keys)
         == (if Get(r, f) in keys then Weight(r, m) else 0) + GroupTotals(rest, f, m, keys)
  {
    if |keys| > 0 {
      var rows := [r] + rest;
      assert rows[0] == r && rows[1..] == rest;
      assert keys[0] !in keys[1..];
      assert NoDuplicates(keys[1..]) by {
        forall i, j | 0 <= i < j < |keys[1..]|
          ensures keys[1..][i] != keys[1..][j]
        {
          assert keys[1..][i] == keys[i + 1] && keys[1..][j] == keys[j + 1];
        }
      }
      GroupTotalsCons(r, rest, f, m, keys[1..]);
      if Get(r, f) == keys[0] {
        var g := Select(rest, f, keys[0]);
        assert Select(rows, f, keys[0]) == [r] + g;
        assert ([r] + g)[1..] == g;
      }
    }
  }

  /**
    When no key repeats and the keys cover every value of the column, the group
    totals add up to the total over all rows: every row falls in exactly one
    group.
   */
  lemma {:induction false} GroupTotalsPartition(rows: seq<Record>, f: Field, m: Measure, keys: seq<string>)
    requires NoDuplicates(keys)
    requires ValuesOf(rows, f) <= Elems(keys)
    ensures GroupTotals(rows, f, m, keys) == Total(rows, m)
  {
    if |rows| == 0 {
      GroupTotalsOfNoRows(f, m, keys);
    } else {
      ValuesOfCons(rows, f);
      assert rows == [rows[0]] + rows[1..];
      GroupTotalsCons(rows[0], rows[1..], f, m, keys);
      GroupTotalsPartition(rows[1..], f, m, keys);
    }
  }

  // ---------------------------------------------------------------------------
  // Pie chart: quantity sold per product category

  datatype CategoryTotal = CategoryTotal(category: string, quantitySold: int)

  function TotalsFor(rows: seq<Record>, keys: seq<string>): (totals: seq<CategoryTotal>)
    ensures |totals| == |keys|
    ensures forall i :: 0 <= i < |keys| ==> totals[i].category == keys[i]
    ensures forall i :: 0 <= i < |keys| ==>
      totals[i].quantitySold == Total(Select(rows, Category, keys[i]), Quantity)
  {
    if |keys| == 0 then []
    else
      [CategoryTotal(keys[0], Total(Select(rows, Category, keys[0]), Quantity))]
      + TotalsFor(rows, keys[1..])
  }

  /** The category column of the table. */
  function Categories(totals: seq<CategoryTotal>): (labels: seq<string>)
    ensures |labels| == |totals|
    ensures forall i :: 0 <= i < |totals| ==> labels[i] == totals[i].category
  {
    if |totals| == 0 then [] else [totals[0].category] + Categories(totals[1..])
  }

  /** The quantity column of the table, summed. */
  function SumOfTotals(totals: seq<CategoryTotal>): int
  {
    if |totals| == 0 then 0 else totals[0].quantitySold + SumOfTotals(totals[1..])
  }

  lemma {:induction false} SumOfTotalsFor(rows: seq<Record>, keys: seq<string>)
    ensures SumOfTotals(TotalsFor(rows, keys)) == GroupTotals(rows, Category, Quantity, keys)
  {
    if |keys| > 0 {
      var t := TotalsFor(rows, keys);
      assert t[1..] == TotalsFor(rows, keys[1..]);
      SumOfTotalsFor(rows, keys[1..]);
    }
  }

  /**
    `groupby('product_category')['quantity_sold'].sum()`: one entry per
    category present, in ascending order, holding that category's total; the
    totals add up to the quantity sold over all rows.
   */
  function CategoryTotals(rows: seq<Record>): (totals: seq<CategoryTotal>)
    ensures StrictlySorted(Categories(totals))
    ensures Elems(Categories(totals)) == ValuesOf(rows, Category)
    ensures forall i :: 0 <= i < |totals| ==>
      totals[i].quantitySold == Total(Select(rows, Category, totals[i].category), Quantity)
    ensures SumOfTotals(totals) == Total(rows, Quantity)
  {
    var keys := DistinctValues(rows, Category);
    var totals := TotalsFor(rows, keys);
    assert Categories(totals) == keys;
    SumOfTotalsFor(rows, keys);
    SortedHasNoDuplicates(keys);
    GroupTotalsPartition(rows, Category, Quantity, keys);
    totals
  }

  // ---------------------------------------------------------------------------
  // Grouped histograms: `groupby(key)[value].value_counts()`

  datatype PairCount = PairCount(key: string, value: string, count: int)

  /** Reference count: the rows carrying `k` in column `kf` and `v` in column `vf`. */
  function CountPair(rows: seq<Record>, kf: Field, vf: Field, k: string, v: string): nat
  {
    if |rows| == 0 then 0
    else (if Get(rows[0], kf) == k && Get(rows[0], vf) == v then 1 else 0)
         + CountPair(rows[1..], kf, vf, k, v)
  }

  lemma {:induction false} SelectTwiceCountsPair(rows: seq<Record>, kf: Field, vf: Field, k: string, v: string)
    ensures |Select(Select(rows, kf, k), vf, v)| == CountPair(rows, kf, vf, k, v)
  {
    if |rows| > 0 {
      SelectTwiceCountsPair(rows[1..], kf, vf, k, v);
      if Get(rows[0], kf) == k {
        var g := Select(rows[1..], kf, k);
        assert Select(rows, kf, k) == [rows[0]] + g;
        assert ([rows[0]] + g)[0] == rows[0] && ([rows[0]] + g)[1..] == g;
      }
    }
  }

  /** The pairs a table lists. */
  function PairSet(entries: seq<PairCount>): set<(string, string)>
  {
    set e | e in entries :: (e.key, e.value)
  }

  /** The pairs that occur in the rows, restricted to keys in `keys`. */
  function RowPairs(rows: seq<Record>, kf: Field, vf: Field, keys: set<string>): set<(string, string)>
  {
    set r | r in rows && Get(r, kf) in keys :: (Get(r, kf), Get(r, vf))
  }

  /** The value counts of the group with key `k`, one entry per value in `values`. */
  function CountsWithin(group: seq<Record>, vf: Field, k: string, values: seq<string>): (entries: seq<PairCount>)
    ensures |entries| == |values|
    ensures forall i :: 0 <= i < |values| ==>
      entries[i] == PairCount(k, values[i], |Select(group, vf, values[i])|)
  {
    if |values| == 0 then []
    else [PairCount(k, values[0], |Select(group, vf, values[0])|)] + CountsWithin(group, vf, k, values[1..])
  }

  /** The counts column of a table, summed. */
  function SumOfCounts(entries: seq<PairCount>): int
  {
    if |entries| == 0 then 0 else entries[0].count + SumOfCounts(entries[1..])
  }

  lemma {:induction false} SumOfCountsConcat(a: seq<PairCount>, b: seq<PairCount>)
    ensures SumOfCounts(a + b) == SumOfCounts(a) + SumOfCounts(b)
  {
    if |a| == 0 {
      assert a + b == b;
    } else {
      assert (a + b)[1..] == a[1..] + b;
      SumOfCountsConcat(a[1..], b);
    }
  }

  lemma {:induction false} SumOfCountsWithin(group: seq<Record>, vf: Field, k: string, values: seq<string>)
    ensures SumOfCounts(CountsWithin(group, vf, k, values)) == GroupTotals(group, vf, RowCount, values)
  {
    if |values| > 0 {
      var e := CountsWithin(group, vf, k, values);
      assert e[1..] == CountsWithin(group, vf, k, values[1..]);
      SumOfCountsWithin(group, vf, k, values[1..]);
    }
  }

  /** The block of the table for key `k`: its values in ascending order. */
  function Block(rows: seq<Record>, kf: Field, vf: Field, k: string): seq<PairCount>
  {
    var group := Select(rows, kf, k);
    CountsWithin(group, vf, k, DistinctValues(group, vf))
  }

  lemma BlockKeys(rows: seq<Record>, kf: Field, vf: Field, k: string)
    ensures forall e :: e in Block(rows, kf, vf, k) ==> e.key == k
  {
  }

  /** Each count in a block is positive and counts the rows carrying its pair. */
  lemma BlockCounts(rows: seq<Record>, kf: Field, vf: Field, k: string)
    ensures forall e :: e in Block(rows, kf, vf, k) ==>
      0 < e.count == CountPair(rows, kf, vf, k, e.value)
  {
    var group := Select(rows, kf, k);
    var values := DistinctValues(group, vf);
    var b := Block(rows, kf, vf, k);
    forall e | e in b
      ensures 0 < e.count == CountPair(rows, kf, vf, k, e.value)
    {
      var i :| 0 <= i < |b| && b[i] == e;
      assert values[i] in Elems(values);
      var r :| r in group && Get(r, vf) == values[i];
      assert r in Select(group, vf, values[i]);
      SelectTwiceCountsPair(rows, kf, vf, k, values[i]);
    }
  }

  lemma BlockValuesDistinct(rows: seq<Record>, kf: Field, vf: Field, k: string)
    ensures forall i, j :: 0 <= i < j < |Block(rows, kf, vf, k)| ==>
      Block(rows, kf, vf, k)[i].value != Block(rows, kf, vf, k)[j].value
  {
    var values := DistinctValues(Select(rows, kf, k), vf);
    var b := Block(rows, kf, vf, k);
    forall i, j | 0 <= i < j < |b|
      ensures b[i].value != b[j].value
    {
      StrictlySortedDistinct(values, i, j);
    }
  }

  lemma BlockPairsListed(rows: seq<Record>, kf: Field, vf: Field, k: string, p: (string, string))
    requires p in PairSet(Block(rows, kf, vf, k))
    ensures p in RowPairs(rows, kf, vf, {k})
  {
    var group := Select(rows, kf, k);
    var values := DistinctValues(group, vf);
    var b := Block(rows, kf, vf, k);
    var e :| e in b && p == (e.key, e.value);
    var i :| 0 <= i < |b| && b[i] == e;
    assert values[i] in Elems(values);
    var r :| r in group && Get(r, vf) == values[i];
    assert r in rows && Get(r, kf) in {k};
  }

  lemma BlockPairsPresent(rows: seq<Record>, kf: Field, vf: Field, k: string, p: (string, string))
    requires p in RowPairs(rows, kf, vf, {k})
    ensures p in PairSet(Block(rows, kf, vf, k))
  {
    var group := Select(rows, kf, k);
    var values := DistinctValues(group, vf);
    var b := Block(rows, kf, vf, k);
    var r :| r in rows && Get(r, kf) in {k} && p == (Get(r, kf), Get(r, vf));
    assert r in group;
    assert Get(r, vf) in Elems(values);
    var i :| 0 <= i < |values| && values[i] == Get(r, vf);
    assert b[i] in b;
  }

  /** A block lists exactly the pairs of the rows whose key is `k`. */
  lemma BlockPairs(rows: seq<Record>, kf: Field, vf: Field, k: string)
    ensures PairSet(Block(rows, kf, vf, k)) == RowPairs(rows, kf, vf, {k})
  {
    forall p | p in PairSet(Block(rows, kf, vf, k))
      ensures p in RowPairs(rows, kf, vf, {k})
    {
      BlockPairsListed(rows, kf, vf, k, p);
    }
    forall p | p in RowPairs(rows, kf, vf, {k})
      ensures p in PairSet(Block(rows, kf, vf, k))
    {
      BlockPairsPresent(rows, kf, vf, k, p);
    }
  }

  /** A block's counts add up to the size of its group. */
  lemma BlockSum(rows: seq<Record>, kf: Field, vf: Field, k: string)
    ensures SumOfCounts(Block(rows, kf, vf, k)) == |Select(rows, kf, k)|
  {
    var group := Select(rows, kf, k);
    var values := DistinctValues(group, vf);
    SumOfCountsWithin(group, vf, k, values);
    SortedHasNoDuplicates(values);
    GroupTotalsPartition(group, vf, RowCount, values);
  }

  /** The blocks for the keys in `keys`, one after another. */
  function Blocks(rows: seq<Record>, kf: Field, vf: Field, keys: seq<string>): seq<PairCount>
  {
    if |keys| == 0 then []
    else Block(rows, kf, vf, keys[0]) + Blocks(rows, kf, vf, keys[1..])
  }

  predicate KeysAscending(entries: seq<PairCount>)
  {
    forall i, j :: 0 <= i < j < |entries| ==>
      entries[i].key == entries[j].key || Less(entries[i].key, entries[j].key)
  }

  predicate PairsDistinct(entries: seq<PairCount>)
  {
    forall i, j :: 0 <= i < j < |entries| ==>
      entries[i].key != entries[j].key || entries[i].value != entries[j].value
  }

  lemma {:induction false} BlocksKeys(rows: seq<Record>, kf: Field, vf: Field, keys: seq<string>)
    ensures forall e :: e in Blocks(rows, kf, vf, keys) ==> e.key in keys
  {
    if |keys| > 0 {
      BlockKeys(rows, kf, vf, keys[0]);
      BlocksKeys(rows, kf, vf, keys[1..]);
    }
  }

  lemma {:induction false} BlocksCounts(rows: seq<Record>, kf: Field, vf: Field, keys: seq<string>)
    ensures forall e :: e in Blocks(rows, kf, vf, keys) ==>
      0 < e.count == CountPair(rows, kf, vf, e.key, e.value)
  {
    if |keys| > 0 {
      BlockKeys(rows, kf, vf, keys[0]);
      BlockCounts(rows, kf, vf, keys[0]);
      BlocksCounts(rows, kf, vf, keys[1..]);
    }
  }

  /** A block of key `k` followed by entries with larger keys keeps keys ascending. */
  lemma AppendLargerKeysAscending(a: seq<PairCount>, rest: seq<PairCount>, k: string)
    requires forall e :: e in a ==> e.key == k
    requires forall e :: e in rest ==> Less(k, e.key)
    requires KeysAscending(rest)
    ensures KeysAscending(a + rest)
  {
    var all := a + rest;
    forall i, j | 0 <= i < j < |all|
      ensures all[i].key == all[j].key || Less(all[i].key, all[j].key)
    {
      if j < |a| {
        assert all[i] == a[i] && all[j] == a[j];
      } else if i < |a| {
        assert all[i] == a[i] && all[j] == rest[j - |a|];
      } else {
        assert all[i] == rest[i - |a|] && all[j] == rest[j - |a|];
      }
    }
  }

  /** Same, for distinctness of the listed pairs. */
  lemma AppendLargerKeysDistinct(a: seq<PairCount>, rest: seq<PairCount>, k: string)
    requires forall e :: e in a ==> e.key == k
    requires forall i, j :: 0 <= i < j < |a| ==> a[i].value != a[j].value
    requires forall e :: e in rest ==> Less(k, e.key)
    requires PairsDistinct(rest)
    ensures PairsDistinct(a + rest)
  {
    var all := a + rest;
    forall i, j | 0 <= i < j < |all|
      ensures all[i].key != all[j].key || all[i].value != all[j].value
    {
      if j < |a| {
        assert all[i] == a[i] && all[j] == a[j];
      } else if i < |a| {
        assert all[i] == a[i] && all[j] == rest[j - |a|];
        LessIrreflexive(k);
      } else {
        assert all[i] == rest[i - |a|] && all[j] == rest[j - |a|];
      }
    }
  }

  lemma LaterBlocksHaveLargerKeys(rows: seq<Record>, kf: Field, vf: Field, keys: seq<string>)
    requires StrictlySorted(keys) && |keys| > 0
    ensures forall e :: e in Blocks(rows, kf, vf, keys[1..]) ==> Less(keys[0], e.key)
  {
    BlocksKeys(rows, kf, vf, keys[1..]);
    forall e | e in Blocks(rows, kf, vf, keys[1..])
      ensures Less(keys[0], e.key)
    {
      var j :| 0 <= j < |keys[1..]| && keys[1..][j] == e.key;
      assert keys[j + 1] == e.key;
    }
  }

  /** Blocks come in key order, and no pair is listed twice. */
  lemma {:induction false} BlocksOrdered(rows: seq<Record>, kf: Field, vf: Field, keys: seq<string>)
    requires StrictlySorted(keys)
    ensures KeysAscending(Blocks(rows, kf, vf, keys))
    ensures PairsDistinct(Blocks(rows, kf, vf, keys))
  {
    if |keys| > 0 {
      var k := keys[0];
      BlockKeys(rows, kf, vf, k);
      BlockValuesDistinct(rows, kf, vf, k);
      LaterBlocksHaveLargerKeys(rows, kf, vf, keys);
      BlocksOrdered(rows, kf, vf, keys[1..]);
      AppendLargerKeysAscending(Block(rows, kf, vf, k), Blocks(rows, kf, vf, keys[1..]), k);
      AppendLargerKeysDistinct(Block(rows, kf, vf, k), Blocks(rows, kf, vf, keys[1..]), k);
    }
  }

  lemma {:induction false} BlocksPairs(rows: seq<Record>, kf: Field, vf: Field, keys: seq<string>)
    ensures PairSet(Blocks(rows, kf, vf, keys)) == RowPairs(rows, kf, vf, Elems(keys))
  {
    if |keys| > 0 {
      var k := keys[0];
      var a := Block(rows, kf, vf, k);
      var rest := Blocks(rows, kf, vf, keys[1..]);
      BlockPairs(rows, kf, vf, k);
      BlocksPairs(rows, kf, vf, keys[1..]);
      assert keys == [k] + keys[1..];
      assert Elems(keys) == {k} + Elems(keys[1..]);
      assert PairSet(a + rest) == PairSet(a) + PairSet(rest);
      assert RowPairs(rows, kf, vf, Elems(keys))
          == RowPairs(rows, kf, vf, {k}) + RowPairs(rows, kf, vf, Elems(keys[1..]));
    } else {
      assert Elems(keys) == {};
    }
  }

  lemma {:induction false} BlocksSum(rows: seq<Record>, kf: Field, vf: Field, keys: seq<string>)
    ensures SumOfCounts(Blocks(rows, kf, vf, keys)) == GroupTotals(rows, kf, RowCount, keys)
  {
    if |keys| > 0 {
      var k := keys[0];
      BlockSum(rows, kf, vf, k);
      BlocksSum(rows, kf, vf, keys[1..]);
      SumOfCountsConcat(Block(rows, kf, vf, k), Blocks(rows, kf, vf, keys[1..]));
    }
  }

  /**
    `groupby(kf)[vf].value_counts()`: one entry per (key, value) pair that
    occurs in the rows, each with the positive number of rows carrying it,
    grouped by key in ascending key order.
   */
  function PairCounts(rows: seq<Record>, kf: Field, vf: Field): (entries: seq<PairCount>)
    ensures forall i :: 0 <= i < |entries| ==>
      0 < entries[i].count == CountPair(rows, kf, vf, entries[i].key, entries[i].value)
    ensures PairSet(entries) == set r | r in rows :: (Get(r, kf), Get(r, vf))
    ensures PairsDistinct(entries)
    ensures KeysAscending(entries)
  {
    var keys := DistinctValues(rows, kf);
    BlocksCounts(rows, kf, vf, keys);
    BlocksPairs(rows, kf, vf, keys);
    BlocksOrdered(rows, kf, vf, keys);
    var entries := Blocks(rows, kf, vf, keys);
    assert RowPairs(rows, kf, vf, Elems(keys)) == set r | r in rows :: (Get(r, kf), Get(r, vf));
    assert forall i :: 0 <= i < |entries| ==> entries[i] in entries;
    entries
  }

  /** The counts of a histogram add up to the number of rows. */
  lemma PairCountsAddUp(rows: seq<Record>, kf: Field, vf: Field)
    ensures SumOfCounts(PairCounts(rows, kf, vf)) == |rows|
  {
    var keys := DistinctValues(rows, kf);
    BlocksSum(rows, kf, vf, keys);
    SortedHasNoDuplicates(keys);
    GroupTotalsPartition(rows, kf, RowCount, keys);
  }
}

=== FILE: dashboard.dfy ===
/**
  One run of the dashboard script: the option lists, the two filtered
  datasets, the headline metrics, and the data behind the two tabs of charts.
  Widgets, layout and chart styling are not modelled; a panel is either its
  data or the "no data" warning.
 */
module Dashboard {
  import opened SortedStrings
  import opened Sales
  import opened Options
  import opened Filtering
  import opened Metrics
  import opened Aggregates

  /** The four panels of a chart tab, or the warning each shows on empty data. */
  datatype ChartTab =
    | NoData
    | Charts(
        categoryQuantities: seq<CategoryTotal>,
        regionsPerCategory: seq<PairCount>,
        paymentsPerCategory: seq<PairCount>,
        paymentsPerRegion: seq<PairCount>)

  /** The pie chart and the three histograms of one tab, skipped on empty data. */
  function ChartTabFor(filtered: seq<Record>): (tab: ChartTab)
    ensures tab.NoData? <==> |filtered| == 0
    ensures tab.Charts? ==>
      && SumOfTotals(tab.categoryQuantities) == Total(filtered, Quantity)
      && SumOfCounts(tab.regionsPerCategory) == |filtered|
      && SumOfCounts(tab.paymentsPerCategory) == |filtered|
      && SumOfCounts(tab.paymentsPerRegion) == |filtered|
    ensures tab.Charts? ==>
      && Elems(Categories(tab.categoryQuantities)) == ValuesOf(filtered, Category)
      && PairSet(tab.regionsPerCategory) == (set r | r in filtered :: (Get(r, Category), Get(r, Region)))
      && PairSet(tab.paymentsPerCategory) == (set r | r in filtered :: (Get(r, Category), Get(r, Payment)))
      && PairSet(tab.paymentsPerRegion) == set r | r in filtered :: (Get(r, Region), Get(r, Payment))
    ensures tab.Charts? ==>
      forall i :: 0 <= i < |tab.categoryQuantities| ==>
        tab.categoryQuantities[i].quantitySold
          == Total(Select(filtered, Category, tab.categoryQuantities[i].category), Quantity)
    ensures tab.Charts? ==>
      && (forall e :: e in tab.regionsPerCategory ==>
            e.count == CountPair(filtered, Category, Region, e.key, e.value))
      && (forall e :: e in tab.paymentsPerCategory ==>
            e.count == CountPair(filtered, Category, Payment, e.key, e.value))
      && (forall e :: e in tab.paymentsPerRegion ==>
            e.count == CountPair(filtered, Region, Payment, e.key, e.value))
  {
    if |filtered| == 0 then NoData
    else
      PairCountsAddUp(filtered, Category, Region);
      PairCountsAddUp(filtered, Category, Payment);
      PairCountsAddUp(filtered, Region, Payment);
      var pie := CategoryTotals(filtered);
      var regionsPerCategory := PairCounts(filtered, Category, Region);
      var paymentsPerCategory := PairCounts(filtered, Category, Payment);
      var paymentsPerRegion := PairCounts(filtered, Region, Payment);
      Charts(pie, regionsPerCategory, paymentsPerCategory, paymentsPerRegion)
  }

  /** The widgets' defaults: every offered option selected. */
  function DefaultSelection(opts: FilterOptions): (sel: Selection)
    ensures forall r :: Matches(sel, r) <==>
      && r.region in opts.regions
      && r.category in opts.categories
      && r.payment in opts.payments
      && OrderYear(r.orderDate) in opts.years
  {
    Selection(Elems(opts.regions), Elems(opts.categories), Elems(opts.payments), Elems(opts.years))
  }

  datatype View = View(
    options: FilterOptions,
    filtered: seq<Record>,
    balancedFiltered: seq<Record>,
    metrics: HeadlineMetrics,
    graphs: ChartTab,
    balancedGraphs: ChartTab)

  /** The whole page for the datasets `df` (unbalanced) and `balanced`. */
  function Render(df: seq<Record>, balanced: seq<Record>, sel: Selection): (v: View)
    ensures IsSubsequence(v.filtered, df) && IsSubsequence(v.balancedFiltered, balanced)
    ensures v.graphs.NoData? <==> |v.filtered| == 0
    ensures v.balancedGraphs.NoData? <==> |v.balancedFiltered| == 0
    ensures |v.filtered| == 0 ==> v.metrics == Zero
    ensures v.options == AvailableOptions(df, balanced) && v.metrics == GeneralMetrics(df, sel)
    ensures v.graphs == ChartTabFor(v.filtered) && v.balancedGraphs == ChartTabFor(v.balancedFiltered)
  {
    var filtered := FilterRows(df, sel);
    var balancedFiltered := FilterRows(balanced, sel);
    FilterRowsIsSubsequence(df, sel);
    FilterRowsIsSubsequence(balanced, sel);
    View(
      AvailableOptions(df, balanced),
      filtered,
      balancedFiltered,
      GeneralMetrics(df, sel),
      ChartTabFor(filtered),
      ChartTabFor(balancedFiltered))
  }

  /** On first load (all options selected) the unbalanced table is shown in full. */
  lemma DefaultsKeepUnbalanced(df: seq<Record>, balanced: seq<Record>)
    ensures FilterRows(df, DefaultSelection(AvailableOptions(df, balanced))) == df
  {
    var opts := AvailableOptions(df, balanced);
    SelectingAllValuesKeepsAll(df, DefaultSelection(opts));
  }

  /**
    Under the defaults a balanced row survives exactly when its region,
    category and year also occur in the unbalanced dataset; its payment
    method is always offered.
   */
  lemma DefaultsOnBalanced(df: seq<Record>, balanced: seq<Record>, r: Record)
    requires r in balanced
    ensures Matches(DefaultSelection(AvailableOptions(df, balanced)), r) <==>
      && r.region in ValuesOf(df, Region)
      && r.category in ValuesOf(df, Category)
      && OrderYear(r.orderDate) in ValuesOf(df, Year)
    ensures r in FilterRows(balanced, DefaultSelection(AvailableOptions(df, balanced))) <==>
      && r.region in ValuesOf(df, Region)
      && r.category in ValuesOf(df, Category)
      && OrderYear(r.orderDate) in ValuesOf(df, Year)
  {
    assert Get(r, Payment) in ValuesOf(balanced, Payment);
    FilterRowsKeepsExactlyMatching(balanced, DefaultSelection(AvailableOptions(df, balanced)), r);
  }

  /**
    The page shows exactly the selected rows of each dataset, each as often as
    the dataset holds it, and, when the unbalanced view is non-empty, metrics
    taken over all of `df`.
   */
  lemma RenderShowsSelectedRows(df: seq<Record>, balanced: seq<Record>, sel: Selection, r: Record)
    ensures r in Render(df, balanced, sel).filtered <==> r in df && Matches(sel, r)
    ensures r in Render(df, balanced, sel).balancedFiltered <==> r in balanced && Matches(sel, r)
    ensures multiset(Render(df, balanced, sel).filtered)[r] == if Matches(sel, r) then multiset(df)[r] else 0
    ensures multiset(Render(df, balanced, sel).balancedFiltered)[r]
         == if Matches(sel, r) then multiset(balanced)[r] else 0
    ensures |Render(df, balanced, sel).filtered| > 0 ==>
      && Render(df, balanced, sel).metrics.totalSold == Total(df, Quantity)
      && Render(df, balanced, sel).metrics.revenue == Total(df, Revenue)
  {
    FilterRowsKeepsExactlyMatching(df, sel, r);
    FilterRowsKeepsExactlyMatching(balanced, sel, r);
    FilterRowsMultiplicity(df, sel, r);
    FilterRowsMultiplicity(balanced, sel, r);
  }

  /** Selecting nothing in any control zeroes the metrics and empties both tabs. */
  lemma EmptySelectionView(df: seq<Record>, balanced: seq<Record>, sel: Selection)
    requires sel.regions == {} || sel.categories == {} || sel.payments == {} || sel.years == {}
    ensures Render(df, balanced, sel).metrics == Zero
    ensures Render(df, balanced, sel).graphs == NoData
    ensures Render(df, balanced, sel).balancedGraphs == NoData
  {
    EmptySelectionEmptiesResult(df, sel);
    EmptySelectionEmptiesResult(balanced, sel);
  }

  // ---------------------------------------------------------------------------
  // Worked examples

  const UsSale := Record("2022-05-01", "US", "Electronics", "Card", 3, 30, 10)
  const EuSale := Record("2023-01-01", "EU", "Books", "Cash", 2, 20, 10)

  /**
    Selecting only the US keeps the first row; the metrics, taken over the
    whole dataset, still report both rows (5 items, 50 revenue).
   */
  lemma RegionExample()
    ensures var sel := Selection({"US"}, {"Electronics", "Books"}, {"Card", "Cash"}, {"2022", "2023"});
      && FilterRows([UsSale, EuSale], sel) == [UsSale]
      && GeneralMetrics([UsSale, EuSale], sel) == HeadlineMetrics(5, 50, 10, 10)
  {
    var df := [UsSale, EuSale];
    var sel := Selection({"US"}, {"Electronics", "Books"}, {"Card", "Cash"}, {"2022", "2023"});
    IsoDateYear("2022", "-05-01");
    IsoDateYear("2023", "-01-01");
    assert "2022" + "-05-01" == UsSale.orderDate;
    assert "2023" + "-01-01" == EuSale.orderDate;
    assert df[1..] == [EuSale];
    assert FilterRows(df, sel) == [UsSale];
    assert [EuSale][1..] == [];
    assert Total([], Quantity) == 0 && Total([], Revenue) == 0;
    assert Total([EuSale], Quantity) == 2 && Total([EuSale], Revenue) == 20;
    assert Total(df, Quantity) == 5 && Total(df, Revenue) == 50;
    assert MinPrice(df) == 10 && MaxPrice(df) == 10;
  }

  /** A year no row has empties the result and zeroes the metrics. */
  lemma MissingYearExample()
    ensures var sel := Selection({"US", "EU"}, {"Electronics", "Books"}, {"Card", "Cash"}, {"2099"});
      && FilterRows([UsSale, EuSale], sel) == []
      && GeneralMetrics([UsSale, EuSale], sel) == Zero
  {
    var df := [UsSale, EuSale];
    IsoDateYear("2022", "-05-01");
    IsoDateYear("2023", "-01-01");
    assert "2022" + "-05-01" == UsSale.orderDate;
    assert "2023" + "-01-01" == EuSale.orderDate;
    assert df[1..] == [EuSale];
  }

  /**
    The defaults need not keep the whole balanced dataset: a balanced row from
    a region the unbalanced data lacks is dropped.
   */
  lemma DefaultsMayDropBalanced()
    ensures var sel := DefaultSelection(AvailableOptions([UsSale], [EuSale]));
      FilterRows([EuSale], sel) == []
  {
    var sel := DefaultSelection(AvailableOptions([UsSale], [EuSale]));
    DefaultsOnBalanced([UsSale], [EuSale], EuSale);
    assert ValuesOf([UsSale], Region) == {"US"};
    assert !Matches(sel, EuSale);
  }
}

=== FILE: filtering.dfy ===
/**
  The four-way `isin` filter applied to each dataset: a row is kept when its
  region, category, payment method and order year are all selected.
 */
module Filtering {
  import opened Sales

  /** The values chosen in the four sidebar controls. */
  datatype Selection = Selection(
    regions: set<string>,
    categories: set<string>,
    payments: set<string>,
    years: set<string>)

  /** The conjunction of the four `isin` masks for one row. */
  predicate Matches(sel: Selection, r: Record)
  {
    && r.region in sel.regions
    && r.category in sel.categories
    && r.payment in sel.payments
    && OrderYear(r.orderDate) in sel.years
  }

  /** `rows[mask]`: the selected rows, in their original order. */
  function FilterRows(rows: seq<Record>, sel: Selection): (kept: seq<Record>)
    ensures |kept| <= |rows|
    ensures forall i :: 0 <= i < |kept| ==> Matches(sel, kept[i])
  {
    if |rows| == 0 then []
    else
      var rest := FilterRows(rows[1..], sel);
      if Matches(sel, rows[0]) then
        assert forall i :: 1 <= i <= |rest| ==> ([rows[0]] + rest)[i] == rest[i - 1];
        [rows[0]] + rest
      else rest
  }

  /** The kept rows appear in the source, in the same relative order. */
  lemma {:induction false} FilterRowsIsSubsequence(rows: seq<Record>, sel: Selection)
    ensures IsSubsequence(FilterRows(rows, sel), rows)
  {
    if |rows| > 0 {
      FilterRowsIsSubsequence(rows[1..], sel);
      var rest := FilterRows(rows[1..], sel);
      if Matches(sel, rows[0]) {
        assert ([rows[0]] + rest)[1..] == rest;
      }
    }
  }

  /** A row is kept exactly when it is in the source and passes all four tests. */
  lemma {:induction false} FilterRowsKeepsExactlyMatching(rows: seq<Record>, sel: Selection, r: Record)
    ensures r in FilterRows(rows, sel) <==> r in rows && Matches(sel, r)
  {
    if |rows| > 0 {
      assert rows == [rows[0]] + rows[1..];
      FilterRowsKeepsExactlyMatching(rows[1..], sel, r);
    }
  }

  /** A passing row is kept as many times as it occurs; a failing one not at all. */
  lemma {:induction false} FilterRowsMultiplicity(rows: seq<Record>, sel: Selection, r: Record)
    ensures multiset(FilterRows(rows, sel))[r] == if Matches(sel, r) then multiset(rows)[r] else 0
  {
    if |rows| > 0 {
      assert rows == [rows[0]] + rows[1..];
      FilterRowsMultiplicity(rows[1..], sel, r);
    }
  }

  /** Selecting nothing in any one control empties the result. */
  lemma EmptySelectionEmptiesResult(rows: seq<Record>, sel: Selection)
    requires sel.regions == {} || sel.categories == {} || sel.payments == {} || sel.years == {}
    ensures FilterRows(rows, sel) == []
  {
  }

  /** When every row passes all four tests, the filter returns the rows unchanged. */
  lemma {:induction false} FilterKeepsAllMatching(rows: seq<Record>, sel: Selection)
    requires forall i :: 0 <= i < |rows| ==> Matches(sel, rows[i])
    ensures FilterRows(rows, sel) == rows
  {
    if |rows| > 0 {
      FilterKeepsAllMatching(rows[1..], sel);
    }
  }

  /** Selecting at least every value present in each column keeps every row. */
  lemma SelectingAllValuesKeepsAll(rows: seq<Record>, sel: Selection)
    requires ValuesOf(rows, Region) <= sel.regions
    requires ValuesOf(rows, Category) <= sel.categories
    requires ValuesOf(rows, Payment) <= sel.payments
    requires ValuesOf(rows, Year) <= sel.years
    ensures FilterRows(rows, sel) == rows
  {
    forall i | 0 <= i < |rows|
      ensures Matches(sel, rows[i])
    {
      var r := rows[i];
      assert Get(r, Region) in ValuesOf(rows, Region);
      assert Get(r, Category) in ValuesOf(rows, Category);
      assert Get(r, Payment) in ValuesOf(rows, Payment);
      assert Get(r, Year) in ValuesOf(rows, Year);
    }
    FilterKeepsAllMatching(rows, sel);
  }

  /** Filtering the concatenation of two datasets filters each part. */
  lemma {:induction false} FilterConcat(a: seq<Record>, b: seq<Record>, sel: Selection)
    ensures FilterRows(a + b, sel) == FilterRows(a, sel) + FilterRows(b, sel)
  {
    if |a| == 0 {
      assert a + b == b;
    } else {
      assert (a + b)[0] == a[0] && (a + b)[1..] == a[1..] + b;
      FilterConcat(a[1..], b, sel);
    }
  }

  /** Filtering twice with the same selection changes nothing the second time. */
  lemma {:induction false} FilterIdempotent(rows: seq<Record>, sel: Selection)
    ensures FilterRows(FilterRows(rows, sel), sel) == FilterRows(rows, sel)
  {
    FilterKeepsAllMatching(FilterRows(rows, sel), sel);
  }
}

=== FILE: metrics.dfy ===
/**
  The four headline metrics. They are zero when the filtered unbalanced data
  is empty; otherwise they are taken over the whole unbalanced dataset `df`,
  not over the filtered rows.
 */
module Metrics {
  import opened Sales
  import opened Filtering

  datatype HeadlineMetrics = HeadlineMetrics(totalSold: int, revenue: int, lowest: int, highest: int)

  const Zero := HeadlineMetrics(0, 0, 0, 0)

  function GeneralMetrics(df: seq<Record>, sel: Selection): (m: HeadlineMetrics)
    ensures |FilterRows(df, sel)| == 0 ==> m == Zero
    ensures |FilterRows(df, sel)| > 0 ==>
      && |df| > 0
      && m.totalSold == Total(df, Quantity)
      && m.revenue == Total(df, Revenue)
      && (exists i :: 0 <= i < |df| && df[i].price == m.lowest)
      && (exists i :: 0 <= i < |df| && df[i].price == m.highest)
      && (forall i :: 0 <= i < |df| ==> m.lowest <= df[i].price <= m.highest)
  {
    if |FilterRows(df, sel)| > 0 then
      HeadlineMetrics(Total(df, Quantity), Total(df, Revenue), MinPrice(df), MaxPrice(df))
    else
      Zero
  }

  /** Any selection that keeps at least one row shows the same metrics. */
  lemma MetricsIgnoreSelection(df: seq<Record>, s1: Selection, s2: Selection)
    requires |FilterRows(df, s1)| > 0 && |FilterRows(df, s2)| > 0
    ensures GeneralMetrics(df, s1) == GeneralMetrics(df, s2)
  {
  }

  /** With any control left empty, every metric reads zero. */
  lemma EmptySelectionZeroesMetrics(df: seq<Record>, sel: Selection)
    requires sel.regions == {} || sel.categories == {} || sel.payments == {} || sel.years == {}
    ensures GeneralMetrics(df, sel) == Zero
  {
    EmptySelectionEmptiesResult(df, sel);
  }
}

=== FILE: options.dfy ===
/**
  The option lists offered by the four sidebar filters: the sorted, distinct
  values of a column (`sorted(df[col].unique())`), and for payment methods the
  sorted union over both datasets.
 */
module Options {
  import opened SortedStrings
  import opened Sales

  /** `sorted(rows[f].unique())`. */
  function DistinctValues(rows: seq<Record>, f: Field): (values: seq<string>)
    ensures StrictlySorted(values)
    ensures Elems(values) == ValuesOf(rows, f)
  {
    if |rows| == 0 then []
    else
      ValuesOfCons(rows, f);
      Insert(Get(rows[0], f), DistinctValues(rows[1..], f))
  }

  /** `sorted(set(a[f].unique()) | set(b[f].unique()))`. */
  function UnionValues(a: seq<Record>, b: seq<Record>, f: Field): (values: seq<string>)
    ensures StrictlySorted(values)
    ensures Elems(values) == ValuesOf(a, f) + ValuesOf(b, f)
  {
    InsertAll(DistinctValues(b, f), DistinctValues(a, f))
  }

  /** The option lists of the four filters, in sidebar order. */
  datatype FilterOptions = FilterOptions(
    regions: seq<string>,
    categories: seq<string>,
    payments: seq<string>,
    years: seq<string>)

  /**
    Regions, categories and years come from the unbalanced dataset `df`
    alone; payment methods come from both datasets.
   */
  function AvailableOptions(df: seq<Record>, balanced: seq<Record>): (opts: FilterOptions)
    ensures StrictlySorted(opts.regions) && Elems(opts.regions) == ValuesOf(df, Region)
    ensures StrictlySorted(opts.categories) && Elems(opts.categories) == ValuesOf(df, Category)
    ensures StrictlySorted(opts.payments)
    ensures Elems(opts.payments) == ValuesOf(df, Payment) + ValuesOf(balanced, Payment)
    ensures StrictlySorted(opts.years) && Elems(opts.years) == ValuesOf(df, Year)
  {
    FilterOptions(
      DistinctValues(df, Region),
      DistinctValues(df, Category),
      UnionValues(df, balanced, Payment),
      DistinctValues(df, Year))
  }

  /**
    The payment list is the one sorted listing of the union: it equals the
    distinct values of the two datasets taken together.
   */
  lemma UnionIsDistinctOfBoth(a: seq<Record>, b: seq<Record>, f: Field)
    ensures UnionValues(a, b, f) == DistinctValues(a + b, f)
  {
    ValuesOfConcat(a, b, f);
    SortedListingUnique(UnionValues(a, b, f), DistinctValues(a + b, f));
  }

  /** Reordering or repeating rows does not change an option list. */
  lemma DistinctValuesDependOnlyOnValues(a: seq<Record>, b: seq<Record>, f: Field)
    requires ValuesOf(a, f) == ValuesOf(b, f)
    ensures DistinctValues(a, f) == DistinctValues(b, f)
  {
    SortedListingUnique(DistinctValues(a, f), DistinctValues(b, f));
  }
}

=== FILE: sales.dfy ===
/**
  The sales records both datasets are made of, the derived `order_year`
  column, and the column-wide totals the dashboard reports.
 */
module Sales {

  /**
    One row of a sales CSV. Quantity, revenue and price are whole numbers here;
    the CSV holds decimals for the last two.
   */
  datatype Record = Record(
    orderDate: string,
    region: string,
    category: string,
    payment: string,
    quantitySold: int,
    totalRevenue: int,
    price: int)

  /** The four categorical columns the sidebar filters on. */
  datatype Field = Region | Category | Payment | Year

  /**
    `order_date.str[:4]`: the first four characters, or the whole string
    when it is shorter.
   */
  function OrderYear(orderDate: string): (year: string)
    ensures |orderDate| >= 4 ==> |year| == 4
    ensures |orderDate| < 4 ==> year == orderDate
    ensures year <= orderDate
  {
    if |orderDate| <= 4 then orderDate else orderDate[..4]
  }

  /** An ISO date `YYYY-MM-DD` yields its `YYYY` part. */
  lemma IsoDateYear(yyyy: string, rest: string)
    requires |yyyy| == 4
    ensures OrderYear(yyyy + rest) == yyyy
  {
    assert (yyyy + rest)[..4] == yyyy;
  }

  /** The value of one categorical column in a row. */
  function Get(r: Record, f: Field): string
  {
    match f
    case Region => r.region
    case Category => r.category
    case Payment => r.payment
    case Year => OrderYear(r.orderDate)
  }

  /** The set of values a column takes over the rows. */
  function ValuesOf(rows: seq<Record>, f: Field): set<string>
  {
    set r | r in rows :: Get(r, f)
  }

  lemma ValuesOfCons(rows: seq<Record>, f: Field)
    requires |rows| > 0
    ensures ValuesOf(rows, f) == {Get(rows[0], f)} + ValuesOf(rows[1..], f)
  {
    assert rows == [rows[0]] + rows[1..];
  }

  lemma ValuesOfConcat(a: seq<Record>, b: seq<Record>, f: Field)
    ensures ValuesOf(a + b, f) == ValuesOf(a, f) + ValuesOf(b, f)
  {
  }

  /** `xs` is `ys` with some elements deleted, the rest in their order. */
  predicate IsSubsequence<T(==)>(xs: seq<T>, ys: seq<T>)
    decreases |ys|
  {
    if |xs| == 0 then true
    else if |ys| == 0 then false
    else (xs[0] == ys[0] && IsSubsequence(xs[1..], ys[1..])) || IsSubsequence(xs, ys[1..])
  }

  /**
    The rows whose column `f` equals `v`, in their original order: one group
    of `groupby(f)`.
   */
  function Select(rows: seq<Record>, f: Field, v: string): (group: seq<Record>)
    ensures forall r :: r in group <==> r in rows && Get(r, f) == v
    ensures |group| <= |rows|
  {
    if |rows| == 0 then []
    else if Get(rows[0], f) == v then [rows[0]] + Select(rows[1..], f, v)
    else Select(rows[1..], f, v)
  }

  /** A group keeps its rows in their original relative order. */
  lemma {:induction false} SelectIsSubsequence(rows: seq<Record>, f: Field, v: string)
    ensures IsSubsequence(Select(rows, f, v), rows)
  {
    if |rows| > 0 {
      SelectIsSubsequence(rows[1..], f, v);
      var rest := Select(rows[1..], f, v);
      if Get(rows[0], f) == v {
        assert ([rows[0]] + rest)[1..] == rest;
      }
    }
  }

  /** A group holds every row of its key as often as it occurs, and no other row. */
  lemma {:induction false} SelectMultiplicity(rows: seq<Record>, f: Field, v: string, r: Record)
    ensures multiset(Select(rows, f, v))[r] == if Get(r, f) == v then multiset(rows)[r] else 0
  {
    if |rows| > 0 {
      assert rows == [rows[0]] + rows[1..];
      SelectMultiplicity(rows[1..], f, v, r);
    }
  }

  /** The numeric columns that get summed, plus a unit weight for counting rows. */
  datatype Measure = Quantity | Revenue | RowCount

  function Weight(r: Record, m: Measure): int
  {
    match m
    case Quantity => r.quantitySold
    case Revenue => r.totalRevenue
    case RowCount => 1
  }

  /** `rows[column].sum()`; with `RowCount`, the number of rows. */
  function Total(rows: seq<Record>, m: Measure): (total: int)
    ensures m == RowCount ==> total == |rows|
    ensures m == Quantity && (forall i :: 0 <= i < |rows| ==> rows[i].quantitySold >= 0) ==> total >= 0
  {
    if |rows| == 0 then 0 else Weight(rows[0], m) + Total(rows[1..], m)
  }

  /** A column sum splits over a concatenation of rows. */
  lemma {:induction false} TotalConcat(a: seq<Record>, b: seq<Record>, m: Measure)
    ensures Total(a + b, m) == Total(a, m) + Total(b, m)
  {
    if |a| > 0 {
      assert (a + b)[1..] == a[1..] + b;
      TotalConcat(a[1..], b, m);
    } else {
      assert a + b == b;
    }
  }

  /** `price.min()` of a non-empty column. */
  function MinPrice(rows: seq<Record>): (low: int)
    requires |rows| > 0
    ensures exists i :: 0 <= i < |rows| && rows[i].price == low
    ensures forall i :: 0 <= i < |rows| ==> low <= rows[i].price
  {
    if |rows| == 1 then rows[0].price
    else
      var rest := MinPrice(rows[1..]);
      assert forall i :: 1 <= i < |rows| ==> rows[i].price == rows[1..][i - 1].price;
      if rows[0].price <= rest then rows[0].price else rest
  }

  /** `price.max()` of a non-empty column. */
  function MaxPrice(rows: seq<Record>): (high: int)
    requires |rows| > 0
    ensures exists i :: 0 <= i < |rows| && rows[i].price == high
    ensures forall i :: 0 <= i < |rows| ==> rows[i].price <= high
  {
    if |rows| == 1 then rows[0].price
    else
      var rest := MaxPrice(rows[1..]);
      assert forall i :: 1 <= i < |rows| ==> rows[i].price == rows[1..][i - 1].price;
      if rows[0].price >= rest then rows[0].price else rest
  }
}

=== FILE: sorted_strings.dfy ===
/**
  Python's ordering of `str` values (code point by code point, a proper prefix
  first) and the sorted, duplicate-free lists that `sorted(...unique())`
  produces from a column.
 */
module SortedStrings {

  /** Python's `a < b` on strings: lexicographic on code points. */
  predicate Less(a: string, b: string)
  {
    if |b| == 0 then false
    else if |a| == 0 then true
    else if a[0] != b[0] then a[0] < b[0]
    else Less(a[1..], b[1..])
  }

  /**
    The textbook reading of lexicographic order: `a` and `b` agree on their
    first `k` characters, and then either `a` ends while `b` goes on, or `a`
    has the smaller code point at position `k`.
   */
  predicate FirstDifferenceFavours(a: string, b: string, k: nat)
  {
    && k <= |a| && k < |b|
    && a[..k] == b[..k]
    && (k == |a| || a[k] < b[k])
  }

  lemma {:induction false} LessIsLexicographic(a: string, b: string)
    ensures Less(a, b) <==> exists k: nat :: FirstDifferenceFavours(a, b, k)
  {
    if |a| > 0 && |b| > 0 && a[0] == b[0] {
      LessIsLexicographic(a[1..], b[1..]);
      if Less(a, b) {
        var k: nat :| FirstDifferenceFavours(a[1..], b[1..], k);
        assert a[..k + 1] == [a[0]] + a[1..][..k];
        assert b[..k + 1] == [b[0]] + b[1..][..k];
        assert FirstDifferenceFavours(a, b, k + 1);
      }
      if exists k: nat :: FirstDifferenceFavours(a, b, k) {
        var k: nat :| FirstDifferenceFavours(a, b, k);
        if k == 0 {
          assert false;
        }
        assert a[..k][1..] == a[1..][..k - 1];
        assert b[..k][1..] == b[1..][..k - 1];
        assert FirstDifferenceFavours(a[1..], b[1..], k - 1);
      }
    } else if |b| > 0 {
      assert FirstDifferenceFavours(a, b, 0) <==> Less(a, b);
    }
  }

  lemma {:induction false} LessIrreflexive(a: string)
    ensures !Less(a, a)
  {
    if |a| > 0 {
      LessIrreflexive(a[1..]);
    }
  }

  lemma {:induction false} LessTransitive(a: string, b: string, c: string)
    requires Less(a, b) && Less(b, c)
    ensures Less(a, c)
  {
    if |a| > 0 && a[0] == b[0] && b[0] == c[0] {
      LessTransitive(a[1..], b[1..], c[1..]);
    }
  }

  /** Any two different strings are ordered one way or the other. */
  lemma {:induction false} LessTotal(a: string, b: string)
    requires a != b
    ensures Less(a, b) || Less(b, a)
  {
    if |a| > 0 && |b| > 0 && a[0] == b[0] {
      assert a == [a[0]] + a[1..] && b == [b[0]] + b[1..];
      LessTotal(a[1..], b[1..]);
    }
  }

  lemma LessAsymmetric(a: string, b: string)
    requires Less(a, b)
    ensures !Less(b, a)
  {
    if Less(b, a) {
      LessTransitive(a, b, a);
      LessIrreflexive(a);
    }
  }

  /** The elements of a list, as a set. */
  function Elems(s: seq<string>): set<string>
  {
    set x | x in s
  }

  /** Ascending without repeats: the shape of `sorted(set_of_values)`. */
  predicate StrictlySorted(s: seq<string>)
  {
    forall i, j :: 0 <= i < j < |s| ==> Less(s[i], s[j])
  }

  lemma StrictlySortedDistinct(s: seq<string>, i: int, j: int)
    requires StrictlySorted(s)
    requires 0 <= i < |s| && 0 <= j < |s| && i != j
    ensures s[i] != s[j]
  {
    if i < j {
      LessIrreflexive(s[i]);
    } else {
      LessIrreflexive(s[j]);
    }
  }

  lemma ConsSorted(h: string, t: seq<string>)
    requires StrictlySorted(t)
    requires forall y :: y in t ==> Less(h, y)
    ensures StrictlySorted([h] + t)
  {
    var s := [h] + t;
    forall i, j | 0 <= i < j < |s|
      ensures Less(s[i], s[j])
    {
      if i == 0 {
        assert s[j] == t[j - 1];
      } else {
        assert s[i] == t[i - 1] && s[j] == t[j - 1];
      }
    }
  }

  /** Adds `x` to a sorted, duplicate-free list, keeping it so. */
  function Insert(x: string, s: seq<string>): (r: seq<string>)
    requires StrictlySorted(s)
    ensures StrictlySorted(r)
    ensures Elems(r) == Elems(s) + {x}
  {
    if |s| == 0 then [x]
    else if x == s[0] then s
    else if Less(x, s[0]) then
      assert forall y :: y in s ==> Less(x, y) by {
        forall y | y in s ensures Less(x, y) {
          var j :| 0 <= j < |s| && s[j] == y;
          if j > 0 {
            LessTransitive(x, s[0], y);
          }
        }
      }
      ConsSorted(x, s);
      [x] + s
    else
      LessTotal(x, s[0]);
      var t := Insert(x, s[1..]);
      assert forall y :: y in t ==> Less(s[0], y) by {
        forall y | y in t ensures Less(s[0], y) {
          assert y in Elems(t);
        }
      }
      ConsSorted(s[0], t);
      assert s == [s[0]] + s[1..];
      assert Elems(s) == {s[0]} + Elems(s[1..]);
      assert Elems([s[0]] + t) == {s[0]} + Elems(t);
      [s[0]] + t
  }

  /** Adds every element of `xs` to the sorted, duplicate-free list `s`. */
  function InsertAll(xs: seq<string>, s: seq<string>): (r: seq<string>)
    requires StrictlySorted(s)
    ensures StrictlySorted(r)
    ensures Elems(r) == Elems(s) + Elems(xs)
  {
    if |xs| == 0 then s
    else
      assert xs == [xs[0]] + xs[1..];
      InsertAll(xs[1..], Insert(xs[0], s))
  }

  lemma ElemsEmpty(s: seq<string>)
    ensures Elems(s) == {} <==> |s| == 0
  {
    if |s| > 0 {
      assert s[0] in Elems(s);
    }
  }

  lemma SortedHeadIsLeast(s: seq<string>, y: string)
    requires StrictlySorted(s) && y in s && y != s[0]
    ensures Less(s[0], y)
  {
  }

  /**
    A finite set of strings has exactly one sorted, duplicate-free listing,
    so any list with those two properties is `sorted(that set)`.
   */
  lemma {:induction false} SortedListingUnique(a: seq<string>, b: seq<string>)
    requires StrictlySorted(a) && StrictlySorted(b)
    requires Elems(a) == Elems(b)
    ensures a == b
  {
    ElemsEmpty(a);
    ElemsEmpty(b);
    if |a| > 0 {
      assert a[0] in Elems(b);
      assert |b| > 0;
      assert b[0] in Elems(a);
      if a[0] != b[0] {
        SortedHeadIsLeast(a, b[0]);
        SortedHeadIsLeast(b, a[0]);
        LessAsymmetric(a[0], b[0]);
        assert false;
      }
      assert a[0] !in a[1..] by {
        if a[0] in a[1..] {
          var j :| 0 <= j < |a[1..]| && a[1..][j] == a[0];
          StrictlySortedDistinct(a, 0, j + 1);
        }
      }
      assert b[0] !in b[1..] by {
        if b[0] in b[1..] {
          var j :| 0 <= j < |b[1..]| && b[1..][j] == b[0];
          StrictlySortedDistinct(b, 0, j + 1);
        }
      }
      assert a == [a[0]] + a[1..] && b == [b[0]] + b[1..];
      assert Elems(a[1..]) == Elems(a) - {a[0]};
      assert Elems(b[1..]) == Elems(b) - {b[0]};
      SortedListingUnique(a[1..], b[1..]);
    }
  }
}
